=== FILE: README.md ===
# Image-step editor and step runner, modelled in Dafny

This project models two pieces of sequential logic of a desktop tool that
automates clicking through screens. The user drops template images into a
graphics view, links them with arrows, and then runs a recorded list of
steps that finds each template on the screen and clicks it.

- **The image-node editor** (`src/modules/test_view.py`), in module
  `ConnectionEditor`:
  - connection mode and its toggle;
  - the press, move and release branches of the viewport's event filter, which draw a dashed preview line and then create a connection;
  - the per-node `connections` lists that `connectTwoItems` appends to;
  - the drop filter on image extensions, and node creation in `handle_image_drop` with its movable flag;
  - the redraw of connection lines when a node is dragged.

  The editor is an immutable `Editor` value. Its nodes are a finite map
  from node identifiers to `Node` records. Every graphics item gets a
  number from one counter, which stands for Qt allocating a fresh item. The
  hit test (`itemAt` followed by the `isinstance(..., PixmapNode)` check)
  is an input of type `Option<NodeId>`. Properties are in
  `EditorProperties`.
- **The step runner** (`test/json_test/main.py`), in module `StepRunner`:
  - `get_max_step_value`, with Python's `int()` on the bracket content of each `Step[...]` key;
  - the step array built in `Start_ON` and its print loop;
  - the centre arithmetic of `match_template`;
  - the visit-every-step loop of `Click_step_by_step`.

  What one `match_template` call sees on screen is an oracle input
  (`MatchOutcome`). Properties are in `StepRunnerProperties`.
- **Support modules.** `Text` models the string operations both parts
  rely on: lower-casing, `startswith` and `endswith`, `split(...)[0]`,
  `strip`, `int()` and `str()`. `Geometry` has integer points and
  segments. `Wrappers` has `Option`.

Where the code does something other than what the tool evidently means to do, the model follows the code:

- A dropped image becomes a node at the scene origin. `handle_image_drop` never calls `setPos`, so the node is not placed at the drop point.
- Toggling connection mode does not cancel a drawing in progress.
- A step that is found is clicked twice: once inside `match_template` and once more by `Click_step_by_step`.
- For the configuration `{"Step[1]": "a.png", "Step[3]": "c.png"}` the step array is `["a.png", "c.png"]`, which has two entries, not one. The print loop fails at index 2.
- A second left press while a preview line is already showing starts a new preview line. The old one stays in the scene.

## Model

| member | source | states |
|---|---|---|
| ConnectionEditor.Init | src/modules/test_view.py:75-103 | A new view starts out of connection mode and not connecting. Its empty scene meets the editor invariant and has no stale lines. |
| ConnectionEditor.Toggle | src/modules/test_view.py:119-130 | Toggling flips connection mode. Afterwards every node is movable exactly when the mode is off. Positions, connection lists and the drawing fields are unchanged, and the editor invariant is kept. |
| EditorProperties.ToggleTwiceRestores | src/modules/test_view.py:119-130 | Toggling twice gives back the original editor, mode and movable flags included. |
| ConnectionEditor.PressLeft | src/modules/test_view.py:138-162 | A left press over an image node records that node as the start, sets connecting, and records the local offset so that it maps back to the pressed point. It adds one fresh dashed preview line from that point to the cursor. A press over anything else changes nothing. No node changes. |
| ConnectionEditor.MoveTo | src/modules/test_view.py:164-171 | While connecting, a move redraws only the preview line, from the start anchor to the cursor. Otherwise it changes nothing. |
| ConnectionEditor.Connect | src/modules/test_view.py:192-230 | connectTwoItems appends exactly one entry to the start node's list. The entry has the end node as target, two fresh and distinct item ids, both offsets, and a segment between the two anchors. The end node's list and every other node are unchanged. |
| ConnectionEditor.Commits | src/modules/test_view.py:178-182 | The release test: connect only while connecting, over an image node that is not the start node. Its effect is stated by ReleaseLeft. |
| ConnectionEditor.DropPreview | src/modules/test_view.py:174-176 | On release the preview line, if any, leaves the scene, and the view no longer holds it. Nothing else changes. |
| ConnectionEditor.ReleaseLeft | src/modules/test_view.py:173-188 | After a left release the preview line is gone, the start item is cleared and connecting is false. A release over no node, or over the start node, leaves every node unchanged. A release over another node appends exactly one connection to the start node, and its end offset maps back to the release point. |
| ConnectionEditor.HandleMouse | src/modules/test_view.py:132-190 | Out of connection mode, mouse events change nothing. Double clicks, and presses and releases of any button other than the left one, change nothing either. In connection mode a left press is PressLeft and a move is MoveTo. A left release always ends the drawing: no preview line, no start item, not connecting. The editor invariant and the mode are kept. |
| ConnectionEditor.AddImageNode | src/modules/test_view.py:244-262 | A file that decodes adds exactly one new node: at the origin, with no connections, and movable exactly when connection mode is off. A file that does not decode adds nothing. |
| ConnectionEditor.DropFiles | src/modules/test_view.py:238-242 | A drop adds one node per accepted, decodable file, under fresh ids. Existing nodes are unchanged, every new node is an unlinked node at the origin with the mode's movable flag, and the invariant is kept. |
| ConnectionEditor.IsImagePath | src/modules/test_view.py:241 | The extension test on the lower-cased path. An accepted path has a dot four or five characters from its end. Partner: IsImagePathMatchesReference. |
| ConnectionEditor.Accepts | src/modules/test_view.py:240-242 | A dropped URL is passed on to handle_image_drop when it names an existing file and passes the extension test. Its effect is stated by DropFiles. |
| EditorProperties.IsImagePathMatchesReference | src/modules/test_view.py:241 | The filter on the lower-cased path is equivalent to a case-insensitive suffix match against .png, .jpg, .jpeg, .bmp and .gif. |
| EditorProperties.EndsWithLower | src/modules/test_view.py:241 | The lower-cased path ends with a lower-case suffix exactly when the path ends with it, ignoring case. |
| EditorProperties.IsImagePathIgnoresCase | src/modules/test_view.py:241 | Two paths that differ only in letter case are both accepted or both refused. |
| EditorProperties.UpperCaseExtensionAccepted | src/modules/test_view.py:241 | "Button.PNG" is accepted. |
| EditorProperties.MixedCaseExtensionAccepted | src/modules/test_view.py:241 | "icon.JpEg" is accepted. |
| EditorProperties.RejectedByLastChar | src/modules/test_view.py:241 | Every accepted extension ends in g, p or f, so a path whose last character lowers to anything else is refused. |
| EditorProperties.OtherExtensionsRejected | src/modules/test_view.py:241 | "a.txt" and "a.png~" are refused. |
| ConnectionEditor.ExpectedSegment | src/modules/test_view.py:50-61 | updateLineAndArrow's line runs from the owner's anchor to the other node's anchor. Mapping each end back into its node's local coordinates gives the stored offset. |
| ConnectionEditor.DragNodeAsWritten | src/modules/test_view.py:44-72 | As written, dragging moves only movable nodes. The moved node's own lines are redrawn from its old position. Lines that end at the moved node are not touched. Nothing else changes: the node's movable flag, its entries' targets, ids and offsets, and the editor's other fields are kept. |
| ConnectionEditor.MoveAndRefresh | src/modules/test_view.py:44-72 | The corrected redraw: the node gets its new position first, then every line with the node at either end is redrawn from the new positions. All other lines, flags and list entries stay as they were. |
| ConnectionEditor.DragNode | src/modules/test_view.py:44-72 | Dragging a movable node moves it and nothing else. A node that is not movable stays put. The connection lists change only in their drawn segments, and the invariant is kept. |
| ConnectionEditor.ApplyAsWritten | src/modules/test_view.py:44-262 | Every user action as the source handles it (toggle, mouse event, drop, and a drag with the as-written refresh) keeps the editor invariant. It agrees with the corrected step on everything but drags, and only a toggle changes the mode. |
| ConnectionEditor.RunAsWritten | src/modules/test_view.py:44-262 | Any session the source runs keeps the editor invariant. |
| EditorProperties.AsWrittenSessionInvariants | src/modules/test_view.py:119-262 | In every session the source runs from a new view, every node is movable exactly when connection mode is off, and the connecting flag, the start item and the preview line are set and cleared together. |
| EditorProperties.DragFreeRunsAgree | src/modules/test_view.py:44-262 | A session without drags is the same whether drags are handled as written or corrected. |
| EditorProperties.DragFreeRunKeepsLinesFresh | src/modules/test_view.py:119-262 | As written, a session without drags keeps every connection line drawn between the current anchors of its nodes. |
| ConnectionEditor.Apply | src/modules/test_view.py:119-262 | With the corrected drag (DragNode), every user action (toggle, mouse event, drop, drag) keeps the editor invariant. |
| ConnectionEditor.Run | src/modules/test_view.py:119-262 | With the corrected drag, any session of actions keeps the editor invariant. |
| EditorProperties.ToggleKeepsLinesFresh | src/modules/test_view.py:119-130 | Toggling leaves every connection line drawn between its current anchors. |
| EditorProperties.HandleMouseKeepsLinesFresh | src/modules/test_view.py:132-230 | Drawing and creating connections leaves every connection line drawn between its current anchors. |
| EditorProperties.DropKeepsLinesFresh | src/modules/test_view.py:238-262 | Dropping images leaves every connection line drawn between its current anchors. |
| EditorProperties.DragNodeKeepsLinesFresh | src/modules/test_view.py:44-72 | With the corrected redraw, dragging leaves every connection line drawn between its current anchors. |
| EditorProperties.ApplyKeepsLinesFresh | src/modules/test_view.py:44-262 | With the corrected redraw (DragNode), every action keeps all connection lines drawn between current anchors. The drag as written does not. |
| EditorProperties.RunKeepsLinesFresh | src/modules/test_view.py:44-262 | With the corrected redraw (DragNode), every session keeps all connection lines drawn between current anchors. The drag as written does not. |
| EditorProperties.SessionInvariants | src/modules/test_view.py:44-262 | With the corrected redraw (DragNode), after any session from a new view, every node is movable exactly when connection mode is off, and every line is drawn between current anchors. |
| EditorProperties.TargetMoveLeavesLineStale | src/modules/test_view.py:44-48 | As written, dragging the end node of any connection to a new place leaves that connection's line at the old anchor. The corrected drag does not. |
| EditorProperties.OwnerMoveLagsBehind | src/modules/test_view.py:44-48 | As written, dragging the start node of a connection redraws the line from the node's old position, so the line lags one move behind. The corrected drag does not. |
| Text.ParseIntOfDecimal | test/json_test/main.py:102 | `int()` reads back every formatted natural number, with or without a leading minus sign. |
| Text.ParseIntIgnoresPadding | test/json_test/main.py:102 | `int()` ignores any run of the white space it strips (space, tab, line feed, vertical tab, form feed, carriage return), before and after the text. |
| Text.ParseInt | test/json_test/main.py:102 | `int()` on a base-10 text: a value is read only when the text holds a digit. Partners: ParseIntOfDecimal, ParseIntIgnoresPadding and ParseIntRejectsLeadingOther. |
| Text.ParseIntRejectsLeadingOther | test/json_test/main.py:102 | `int()` raises ValueError on a text whose first character is not white space, a sign or a digit. The control characters U+001C..U+001F count here: `int()` does not strip them. |
| StepRunner.BracketContent | test/json_test/main.py:102 | `key.split('[')[1].split(']')[0]` for a key starting with "Step[": the text after "Step[" up to the first bracket or the end. It holds no bracket. |
| StepRunner.StepIndex | test/json_test/main.py:99-106 | A key yields an index only when it starts with "Step[" and has a digit after that prefix; otherwise it is skipped. Partner: StepKeyRoundTrip. |
| Text.FirstField | test/json_test/main.py:102 | `s.split(sep)[0]` is the part of s before the first sep, or all of s when there is none. It holds no sep. |
| Text.FirstFieldAppend | test/json_test/main.py:102 | `split(sep)[0]` of a text without the separator, followed by more text, is that text followed by the first field of the rest. |
| StepRunner.MaxIndex | test/json_test/main.py:97-107 | The scan returns at least 0 and at least every index a key yields. The result is 0 or one of those indices. |
| StepRunner.GetMaxStepValue | test/json_test/main.py:87-107 | get_max_step_value returns the largest integer in the brackets of a "Step[" key when that integer is positive, and 0 otherwise. |
| StepRunner.StepKey | test/json_test/main.py:150 | The key `f"Step[{i}]"` starts with "Step[", ends with "]" and has text between them. Partner: StepKeyRoundTrip. |
| StepRunnerProperties.StepKeyRoundTrip | test/json_test/main.py:98-102 | The key `f"Step[{i}]"` that the array loop looks up is read back as i by get_max_step_value's parser. |
| StepRunnerProperties.MaxStepUnique | test/json_test/main.py:97-107 | The maximum step of a configuration is unique. |
| StepRunnerProperties.NoStepKeysGivesZero | test/json_test/main.py:97-107 | With no key starting with "Step[", the maximum step is 0. |
| StepRunnerProperties.UnparsableKeyIgnored | test/json_test/main.py:101-106 | Removing a key whose bracket content `int()` refuses does not change the maximum. |
| StepRunnerProperties.NoneKeyIgnored | test/json_test/main.py:101-106 | For any key parser, removing a key that yields nothing does not change the maximum. |
| StepRunnerProperties.TwoKeyMax | test/json_test/main.py:97-107 | A configuration with exactly the keys Step[a] and Step[b], where a <= b, has maximum b. |
| StepRunnerProperties.TwoKeysMaxOf | test/json_test/main.py:97-107 | For any key parser, two keys that yield 0 <= a <= b give the maximum b. |
| StepRunner.StepArray | test/json_test/main.py:148-152 | The step array has at most max entries. It has exactly max entries iff every Step[i] with 1 <= i <= max is present. |
| StepRunner.StepSources | test/json_test/main.py:148-152 | The indices that feed the array are strictly increasing, all lie in 1..max, name present keys, and include every present Step[i] in that range. |
| StepRunnerProperties.StepArrayContents | test/json_test/main.py:148-152 | Entry j of the step array is the value of the j-th present key in increasing index order. |
| StepRunnerProperties.GaplessStepArrayAligned | test/json_test/main.py:148-152 | Without gaps, entry j of the step array is the value of Step[j+1]. |
| StepRunner.PrintRange | test/json_test/main.py:155-156 | The loop prints one line per index, in order, until it reaches the requested count or the end of the array. Reaching the end first stops it with IndexError at that index. |
| StepRunner.PrintStepsAsWritten | test/json_test/main.py:155-156 | The print loop over range(max) finishes iff max is at most the array's length. Otherwise it fails at the index just past the array. |
| StepRunner.PrintSteps | test/json_test/main.py:155-156 | The print loop bounded by the array's length always finishes, printing every entry once and in order. |
| StepRunnerProperties.GapMakesPrintLoopFail | test/json_test/main.py:148-156 | Any missing Step[i] below the maximum makes the array shorter than the maximum. The as-written print loop then fails at index len(step_array), after printing every entry. |
| StepRunnerProperties.SeparatorKeySkipped | test/json_test/main.py:101-106 | The key "Step[\x1c7]" yields no index, so get_max_step_value skips it. |
| StepRunnerProperties.GapExampleMax | test/json_test/main.py:87-107 | The maximum step of {"Step[1]": "a.png", "Step[3]": "c.png"} is 3. |
| StepRunnerProperties.GapExampleArray | test/json_test/main.py:148-152 | The step array of that configuration is ["a.png", "c.png"]. |
| StepRunnerProperties.GapCrashesPrintLoop | test/json_test/main.py:144-156 | The as-written run on that configuration fails with IndexError at step_array[2]. |
| StepRunner.Centre | test/json_test/main.py:52-54 | The centre is the top-left corner plus half the size, rounded down. For a size of at least 1 it lies inside the matched rectangle. |
| StepRunner.MatchTemplate | test/json_test/main.py:13-68 | match_template returns a location iff a match was found. That location is exactly the centre of the match, and for a template of positive size it lies inside the match. |
| StepRunner.ClickStepByStep | test/json_test/main.py:109-118 | Every step is attempted, in array order, whatever earlier attempts returned. The clicks are exactly those of the found attempts. |
| StepRunnerProperties.ClicksAtFoundCentres | test/json_test/main.py:109-118 | Every click lands on the location of a found attempt, and every found attempt is clicked. |
| StepRunner.StartOnAsWritten | test/json_test/main.py:127-164 | As written, Start_ON stops with IndexError exactly when some Step[i] with 1 <= i <= max is missing, and then before any click. In ADB mode it only prints. Otherwise it attempts every collected step in order. |
| StepRunner.StartOn | test/json_test/main.py:127-164 | With the print loop bounded by the array, Start_ON never stops with IndexError. Line j of its output is the line for entry j of the step array, for every entry, and outside ADB mode it attempts every one of them in order. |

## Left out

- Rendering: pens, dash styles, z-values, the status label texts, context-menu construction, the `ItemIsSelectable` flag, and wheel zoom with its float factor 1.2. None of these affect the connection state.
- Arrow items: the arrow's midpoint position and its `atan2` rotation in degrees are floating point, so they are not modelled. An arrow is only a fresh item id.
- Coordinates are integers. `mapToScene` and `mapFromScene` of an untransformed node are modelled as adding and subtracting the node's position. The view transform is folded into the scene position of each event.
- Hit testing (`itemAt`) is an input. Which item is on top, such as an arrow over a node, is decided by the caller.
- The context menu is modelled only through the toggle it calls.
- `dragEnterEvent` only accepts or ignores the drag, so it has no state to model.
- File I/O is left out: copying into the `detect` folder, creating that folder, JSON loading and the cache directory. Whether a dropped path is an existing file and whether it decodes to a pixmap are inputs.
- match_template's screenshot, OpenCV matching, the confidence comparison, the one-second polling and the timeout are one oracle result per attempt (`MatchOutcome`). The mouse movement is not modelled; a click is its target point.
- Console output is modelled only for the step-array print loop, whose failure is the point. The other `print` calls are left out.
- The ADB branch is an unimplemented stub in the source. It is modelled as a report that prints and clicks nothing.
- Text.ParseInt: models `int()` for ASCII input only. It covers the white space `int()` strips (space, tab, line feed, vertical tab, form feed, carriage return; not U+001C..U+001F, which `str.strip()` would remove), an optional sign, and digit groups separated by single underscores. Non-ASCII digits and white space are not modelled.
- Text.ParseInt: does not model the limit on the number of digits that recent Python versions put on `int()`, 4300 by default. Such versions raise ValueError for a longer bracket content, and get_max_step_value then skips the key. The model reads the number instead, because the limit depends on the Python version and its settings.
- StepRunner.StepKey: its own contract gives only the shape of the key (prefix, closing bracket, non-empty middle). That the middle is the decimal form of i, read back by the key parser, is stated by StepKeyRoundTrip. A digit-by-digit clause on StepKey itself makes the step-array proofs too costly for the solver.
- ConnectionEditor.DropFiles: does not model exceptions from the copy in handle_image_drop. One example is `shutil.SameFileError` when a file already in the `detect` folder is dropped again. Such an exception ends dropEvent, so the later URLs of that drop make no node. The model always goes on to the next URL, because the copy is I/O and is left out.
- StepRunner.ClickStepByStep: does not model exceptions from OpenCV or pyautogui inside match_template. One example is `cv2.error` for a template larger than the screenshot in one dimension. Such an exception ends Click_step_by_step and Start_ON. The model always goes on to the next step, because the matching is an oracle input.
- Text.Lower: lower-cases ASCII letters only. Python's full Unicode lower-casing is not modelled.
- Config values are strings (the template paths). JSON values of other types are not modelled.

## Findings

| source | as written | input that shows it | evidently intended | confidence | as-written member | corrected member |
|---|---|---|---|---|---|---|
| test/json_test/main.py:155-156 | The print loop indexes `step_array` over `range(max_step_value)`, but missing keys are skipped when the array is built. | `{"Step[1]": "a.png", "Step[3]": "c.png"}`: max is 3, the array has 2 entries, and `step_array[2]` raises IndexError. No step is clicked. | Print every collected entry, i.e. loop over `range(len(step_array))`. | not executed | StepRunner.StartOnAsWritten, StepRunnerProperties.GapCrashesPrintLoop | StepRunner.StartOn |
| src/modules/test_view.py:44-48, 229-230 | A connection is recorded only in the start node's list. Only a node's own list is refreshed when it moves, so moving the end node never redraws the line. | A connection from node 0 to node 1, then dragging node 1 anywhere else: the line still ends at node 1's old anchor. | Redraw every line with the moved node at either end. | not executed | EditorProperties.TargetMoveLeavesLineStale | ConnectionEditor.DragNode |
| src/modules/test_view.py:44-48 | The refresh runs on `ItemPositionChange`, which Qt delivers before the new position is stored, so `mapToScene` still uses the old position. | A connection from node 0, then dragging node 0 to a new point: the line starts at node 0's previous anchor. | Redraw after the move, for example on `ItemPositionHasChanged`. | not executed; depends on Qt's documented order for `itemChange` | EditorProperties.OwnerMoveLagsBehind | ConnectionEditor.DragNode |

=== FILE: connection_editor.dfy ===
/**
 The image-node editor of src/modules/test_view.py: the connection-drawing
 state machine (connection mode, press/move/release over the viewport), the
 per-node connection lists that connectTwoItems keeps, node creation on an
 image drop, and the refresh of connection lines when a node is dragged.

 Graphics items are identified by numbers drawn from one counter (`nextId`),
 which stands for Qt allocating a fresh item. The hit test is an input: the
 node under the cursor, or None when the top item there is not an image node.
 */
module ConnectionEditor {
  import opened Wrappers
  import opened Geometry
  import Text

  type NodeId = nat
  type ItemId = nat

  /** One entry `(otherNode, lineObj, arrowObj, myOffset, otherOffset)` of a
      node's `connections` list, together with the line item's current
      geometry. */
  datatype Connection = Connection(
    target: NodeId,
    line: ItemId,
    arrow: ItemId,
    startOffset: Point,
    endOffset: Point,
    segment: Segment)

  /** A PixmapNode: its scene position, its ItemIsMovable flag and its
      outgoing connections. */
  datatype Node = Node(pos: Point, movable: bool, connections: seq<Connection>)

  /** The scene together with the TestView fields that drive connection
      drawing. `previewLines` are the dashed lines currently in the scene. */
  datatype Editor = Editor(
    nodes: map<NodeId, Node>,
    previewLines: map<ItemId, Segment>,
    nextId: nat,
    connectionMode: bool,
    connecting: bool,
    startItem: Option<NodeId>,
    startOffset: Point,
    tempLine: Option<ItemId>)

  datatype Button = Left | Right | Middle

  /** A mouse event seen by the viewport's event filter, in scene coordinates. */
  datatype MouseEvent =
    | Press(button: Button, scenePos: Point, hit: Option<NodeId>)
    | Move(scenePos: Point)
    | Release(button: Button, scenePos: Point, hit: Option<NodeId>)
    | DoubleClick(button: Button, scenePos: Point)

  /** A dropped URL: its local path, whether that path is an existing file,
      and whether the copied file decodes to a non-null pixmap. */
  datatype DroppedFile = DroppedFile(path: string, isFile: bool, decodes: bool)

  const ImageExtensions: seq<string> := [".png", ".jpg", ".jpeg", ".bmp", ".gif"]

  /** A freshly constructed view: empty scene, connection mode off. */
  function Init(): (e: Editor)
    ensures Wf(e) && LinesFresh(e)
    ensures !e.connectionMode && !e.connecting
  {
    Editor(map[], map[], 0, false, false, None, Origin, None)
  }

  /** `node.mapToScene(offset)`. */
  function Anchor(nodes: map<NodeId, Node>, n: NodeId, offset: Point): Point
    requires n in nodes
  {
    Add(nodes[n].pos, offset)
  }

  /** `node.mapFromScene(scenePos)`. */
  function LocalOffset(nodes: map<NodeId, Node>, n: NodeId, scenePos: Point): Point
    requires n in nodes
  {
    Sub(scenePos, nodes[n].pos)
  }

  /** The line from the owner's anchor to the target's anchor, as
      updateLineAndArrow would set it from the positions in `nodes`. */
  function ExpectedSegment(nodes: map<NodeId, Node>, owner: NodeId, c: Connection): (r: Segment)
    requires owner in nodes && c.target in nodes
    ensures LocalOffset(nodes, owner, r.source) == c.startOffset
    ensures LocalOffset(nodes, c.target, r.dest) == c.endOffset
  {
    Segment(Anchor(nodes, owner, c.startOffset), Anchor(nodes, c.target, c.endOffset))
  }

  predicate ConnectionWf(e: Editor, c: Connection)
  {
    c.target in e.nodes && c.line < e.nextId && c.arrow < e.nextId && c.line != c.arrow
  }

  /** The invariant every reachable editor state keeps: item ids are fresh
      below `nextId`, connections point at nodes of the scene, every node is
      movable exactly when connection mode is off, and the three drawing
      fields are set and cleared together. */
  predicate Wf(e: Editor)
  {
    SceneWf(e) && DrawingWf(e)
  }

  predicate SceneWf(e: Editor)
  {
    && (forall n :: n in e.nodes ==> n < e.nextId)
    && (forall t :: t in e.previewLines ==> t < e.nextId && t !in e.nodes)
    && (forall n, i :: n in e.nodes && 0 <= i < |e.nodes[n].connections| ==>
          ConnectionWf(e, e.nodes[n].connections[i]))
    && (forall n :: n in e.nodes ==> e.nodes[n].movable == !e.connectionMode)
  }

  predicate DrawingWf(e: Editor)
  {
    && (e.connecting <==> e.startItem.Some?)
    && (e.connecting <==> e.tempLine.Some?)
    && (e.startItem.Some? ==> e.startItem.value in e.nodes)
    && (e.tempLine.Some? ==> e.tempLine.value in e.previewLines)
  }

  /** Every connection line shows the current anchors of both its nodes. */
  predicate LinesFresh(e: Editor)
  {
    forall o, i :: o in e.nodes && 0 <= i < |e.nodes[o].connections| ==>
      var c := e.nodes[o].connections[i];
      c.target in e.nodes && c.segment == ExpectedSegment(e.nodes, o, c)
  }

  // ---------------------------------------------------------------- toggle

  /** toggleConnectionMode: flip the mode and make every image node movable
      exactly when the mode is now off. A drawing in progress is left as is. */
  function Toggle(e: Editor): (r: Editor)
    ensures r.connectionMode == !e.connectionMode
    ensures r.nodes.Keys == e.nodes.Keys
    ensures forall n :: n in r.nodes ==> r.nodes[n].movable == !r.connectionMode
    ensures forall n :: n in r.nodes ==>
      r.nodes[n].pos == e.nodes[n].pos && r.nodes[n].connections == e.nodes[n].connections
    ensures r.connecting == e.connecting && r.startItem == e.startItem
    ensures r.tempLine == e.tempLine && r.previewLines == e.previewLines
    ensures Wf(e) ==> Wf(r)
  {
    var mode := !e.connectionMode;
    e.(connectionMode := mode,
       nodes := map n | n in e.nodes :: e.nodes[n].(movable := !mode))
  }

  // ---------------------------------------------------------- mouse events

  predicate HitsNodes(e: Editor, ev: MouseEvent)
  {
    match ev
    case Press(_, _, hit) => hit.Some? ==> hit.value in e.nodes
    case Release(_, _, hit) => hit.Some? ==> hit.value in e.nodes
    case _ => true
  }

  /** Left press in connection mode. Over an image node: remember the node
      and the local point under the cursor, start connecting, and add a
      dashed preview line starting at that point. Elsewhere: nothing. */
  function PressLeft(e: Editor, scenePos: Point, hit: Option<NodeId>): (r: Editor)
    requires Wf(e)
    requires hit.Some? ==> hit.value in e.nodes
    ensures Wf(r)
    ensures hit.None? ==> r == e
    ensures hit.Some? ==>
      && r.startItem == hit
      && r.connecting
      && Anchor(r.nodes, hit.value, r.startOffset) == scenePos
      && r.tempLine == Some(e.nextId)
      && e.nextId !in e.previewLines
      && r.previewLines == e.previewLines[e.nextId := Segment(scenePos, scenePos)]
    ensures r.nodes == e.nodes && r.connectionMode == e.connectionMode
  {
    match hit
    case None => e
    case Some(n) =>
      var offset := LocalOffset(e.nodes, n, scenePos);
      var line := e.nextId;
      e.(startItem := Some(n),
         startOffset := offset,
         connecting := true,
         tempLine := Some(line),
         previewLines := e.previewLines[line := Segment(Anchor(e.nodes, n, offset), scenePos)],
         nextId := line + 1)
  }

  /** Mouse move in connection mode: while connecting, the preview line runs
      from the start anchor to the cursor. */
  function MoveTo(e: Editor, scenePos: Point): (r: Editor)
    requires Wf(e)
    ensures Wf(r)
    ensures !e.connecting ==> r == e
    ensures e.connecting ==>
      && e.startItem.value in e.nodes
      && r.previewLines == e.previewLines[e.tempLine.value :=
           Segment(Anchor(e.nodes, e.startItem.value, e.startOffset), scenePos)]
    ensures r == e.(previewLines := r.previewLines)
  {
    if e.connecting && e.tempLine.Some? && e.startItem.Some? then
      var from := Anchor(e.nodes, e.startItem.value, e.startOffset);
      e.(previewLines := e.previewLines[e.tempLine.value := Segment(from, scenePos)])
    else
      e
  }

  /** The release test `isinstance(end_item, PixmapNode) and end_item != self.start_item`
      under an ongoing drawing. */
  predicate Commits(e: Editor, hit: Option<NodeId>)
  {
    e.connecting && hit.Some? && Some(hit.value) != e.startItem
  }

  /** connectTwoItems: a new line and arrow, and exactly one entry appended
      to the start node's list; the end node does not record the link. */
  function Connect(e: Editor, a: NodeId, offsetA: Point, b: NodeId, offsetB: Point): (r: Editor)
    requires SceneWf(e) && a in e.nodes && b in e.nodes
    ensures SceneWf(r)
    ensures r.nodes.Keys == e.nodes.Keys
    ensures r.nodes[a].pos == e.nodes[a].pos && r.nodes[a].movable == e.nodes[a].movable
    ensures |r.nodes[a].connections| == |e.nodes[a].connections| + 1
    ensures r.nodes[a].connections[..|e.nodes[a].connections|] == e.nodes[a].connections
    ensures var c := r.nodes[a].connections[|e.nodes[a].connections|];
      && c.target == b && c.startOffset == offsetA && c.endOffset == offsetB
      && c.line >= e.nextId && c.arrow >= e.nextId && c.line != c.arrow
      && c.segment == Segment(Anchor(e.nodes, a, offsetA), Anchor(e.nodes, b, offsetB))
    ensures forall n :: n in e.nodes && n != a ==> r.nodes[n] == e.nodes[n]
    ensures r == e.(nodes := r.nodes, nextId := r.nextId)
  {
    var line := e.nextId;
    var arrow := e.nextId + 1;
    var seg := Segment(Anchor(e.nodes, a, offsetA), Anchor(e.nodes, b, offsetB));
    var c := Connection(b, line, arrow, offsetA, offsetB, seg);
    var node := e.nodes[a];
    var r := e.(nodes := e.nodes[a := node.(connections := node.connections + [c])],
                nextId := arrow + 1);
    assert r.nodes[a].connections[..|node.connections|] == node.connections;
    r
  }

  /** Left release in connection mode: the preview line leaves the scene, a
      connection is made when the cursor is over an image node other than the
      start node, and the drawing state is reset in every case. */
  function ReleaseLeft(e: Editor, scenePos: Point, hit: Option<NodeId>): (r: Editor)
    requires Wf(e)
    requires hit.Some? ==> hit.value in e.nodes
    ensures Wf(r)
    ensures r.tempLine.None? && r.startItem.None? && !r.connecting
    ensures e.tempLine.Some? ==> r.previewLines == e.previewLines - {e.tempLine.value}
    ensures e.tempLine.None? ==> r.previewLines == e.previewLines
    ensures !Commits(e, hit) ==> r.nodes == e.nodes
    ensures Commits(e, hit) ==>
      var a := e.startItem.value;
      var before := e.nodes[a].connections;
      && r.nodes.Keys == e.nodes.Keys
      && r.nodes[a].pos == e.nodes[a].pos
      && |r.nodes[a].connections| == |before| + 1
      && r.nodes[a].connections[..|before|] == before
      && r.nodes[a].connections[|before|].target == hit.value
      && r.nodes[a].connections[|before|].startOffset == e.startOffset
      && Anchor(e.nodes, hit.value, r.nodes[a].connections[|before|].endOffset) == scenePos
      && (forall n :: n in e.nodes && n != a ==> r.nodes[n] == e.nodes[n])
    ensures r.connectionMode == e.connectionMode
  {
    var cleared := DropPreview(e);
    if Commits(e, hit) then
      var linked := Connect(cleared, e.startItem.value, e.startOffset, hit.value,
                            LocalOffset(e.nodes, hit.value, scenePos));
      var r := linked.(startItem := None, connecting := false);
      SceneWfFrame(linked, r);
      r
    else
      var r := cleared.(startItem := None, connecting := false);
      SceneWfFrame(cleared, r);
      r
  }

  /** Scene well-formedness does not look at the drawing fields. */
  lemma SceneWfFrame(e: Editor, r: Editor)
    requires SceneWf(e)
    requires r.nodes == e.nodes && r.previewLines == e.previewLines
    requires r.nextId == e.nextId && r.connectionMode == e.connectionMode
    ensures SceneWf(r)
  {
  }

  /** The preview line, if any, taken out of the scene. */
  function DropPreview(e: Editor): (r: Editor)
    requires SceneWf(e)
    ensures SceneWf(r) && r.tempLine.None?
    ensures e.tempLine.Some? ==> r.previewLines == e.previewLines - {e.tempLine.value}
    ensures e.tempLine.None? ==> r.previewLines == e.previewLines
    ensures r == e.(previewLines := r.previewLines, tempLine := None)
  {
    if e.tempLine.Some? then e.(previewLines := e.previewLines - {e.tempLine.value}, tempLine := None)
    else e
  }

  /** eventFilter on the viewport: mouse events are handled only in
      connection mode, and only left presses, moves and left releases. */
  function HandleMouse(e: Editor, ev: MouseEvent): (r: Editor)
    requires Wf(e) && HitsNodes(e, ev)
    ensures Wf(r)
    ensures !e.connectionMode ==> r == e
    ensures r.connectionMode == e.connectionMode
    ensures ev.DoubleClick? || ((ev.Press? || ev.Release?) && ev.button != Left) ==> r == e
    ensures e.connectionMode && ev.Press? && ev.button == Left ==> r == PressLeft(e, ev.scenePos, ev.hit)
    ensures e.connectionMode && ev.Move? ==> r == MoveTo(e, ev.scenePos)
    ensures e.connectionMode && ev.Release? && ev.button == Left ==>
      r.tempLine.None? && r.startItem.None? && !r.connecting
  {
    if !e.connectionMode then e
    else
      match ev
      case Press(button, pos, hit) => if button == Left then PressLeft(e, pos, hit) else e
      case Move(pos) => MoveTo(e, pos)
      case Release(button, pos, hit) => if button == Left then ReleaseLeft(e, pos, hit) else e
      case DoubleClick(_, _) => e
  }

  // ------------------------------------------------------------ image drop

  predicate EndsWithAny(s: string, suffixes: seq<string>)
  {
    exists i :: 0 <= i < |suffixes| && Text.EndsWith(s, suffixes[i])
  }

  /** The dropEvent extension test on `file_path.lower()`. */
  predicate IsImagePath(path: string)
    ensures IsImagePath(path) ==>
      |path| >= 4 && (path[|path| - 4] == '.' || (|path| >= 5 && path[|path| - 5] == '.'))
  {
    ImageSuffixHasDot(path);
    EndsWithAny(Text.Lower(path), ImageExtensions)
  }

  /** Lower-casing keeps the dot of an accepted extension where it was. */
  lemma ImageSuffixHasDot(path: string)
    ensures EndsWithAny(Text.Lower(path), ImageExtensions) ==>
      |path| >= 4 && (path[|path| - 4] == '.' || (|path| >= 5 && path[|path| - 5] == '.'))
  {
    var l := Text.Lower(path);
    if k :| 0 <= k < |ImageExtensions| && Text.EndsWith(l, ImageExtensions[k]) {
      var ext := ImageExtensions[k];
      assert ext[0] == '.' && (|ext| == 4 || |ext| == 5);
      DotKept(path, |path| - |ext|);
    }
  }

  lemma DotKept(path: string, j: nat)
    requires j < |path| && Text.Lower(path)[j] == '.'
    ensures path[j] == '.'
  {
    assert Text.LowerChar(path[j]) == '.';
  }

  /** dropEvent hands a URL to handle_image_drop when it names an existing
      file with an image extension. */
  predicate Accepts(f: DroppedFile)
  {
    f.isFile && IsImagePath(f.path)
  }

  /** A dropped file that ends up as a node: accepted and decodable. */
  predicate Loads(f: DroppedFile)
  {
    Accepts(f) && f.decodes
  }

  function LoadedCount(files: seq<DroppedFile>): nat
  {
    if |files| == 0 then 0 else (if Loads(files[0]) then 1 else 0) + LoadedCount(files[1..])
  }

  /** handle_image_drop: a decodable file becomes a new node at the scene
      origin with no connections, movable unless connection mode is on. */
  function AddImageNode(e: Editor, f: DroppedFile): (r: Editor)
    requires Wf(e)
    ensures Wf(r)
    ensures !f.decodes ==> r == e
    ensures f.decodes ==>
      && e.nextId !in e.nodes
      && r.nodes == e.nodes[e.nextId := Node(Origin, !e.connectionMode, [])]
      && r.nextId == e.nextId + 1
    ensures r == e.(nodes := r.nodes, nextId := r.nextId)
  {
    if !f.decodes then e
    else
      var n := e.nextId;
      e.(nodes := e.nodes[n := Node(Origin, !e.connectionMode, [])], nextId := n + 1)
  }

  /** dropEvent over all dropped URLs, in order. */
  function DropFiles(e: Editor, files: seq<DroppedFile>): (r: Editor)
    requires Wf(e)
    ensures Wf(r)
    ensures r.nextId == e.nextId + LoadedCount(files)
    ensures forall n :: n in r.nodes <==> n in e.nodes || e.nextId <= n < r.nextId
    ensures forall n :: n in e.nodes ==> r.nodes[n] == e.nodes[n]
    ensures forall n :: n in r.nodes && n !in e.nodes ==>
      r.nodes[n] == Node(Origin, !e.connectionMode, [])
    ensures r == e.(nodes := r.nodes, nextId := r.nextId)
    decreases |files|
  {
    if |files| == 0 then e
    else
      var next := if Accepts(files[0]) then AddImageNode(e, files[0]) else e;
      DropFiles(next, files[1..])
  }

  // ------------------------------------------------------------- dragging

  /** Dragging a node to `to` as the source does it: Qt only moves movable
      items; itemChange(ItemPositionChange) runs before the position is
      written, so the node's own lines are recomputed from its OLD position,
      and lines into the node (kept in other nodes' lists) are not touched. */
  function DragNodeAsWritten(e: Editor, n: NodeId, to: Point): (r: Editor)
    requires Wf(e) && n in e.nodes
    ensures Wf(r)
    ensures !e.nodes[n].movable ==> r == e
    ensures r.nodes.Keys == e.nodes.Keys
    ensures e.nodes[n].movable ==> r.nodes[n].pos == to
    ensures forall m :: m in e.nodes && m != n ==> r.nodes[m] == e.nodes[m]
    ensures |r.nodes[n].connections| == |e.nodes[n].connections|
    ensures forall i :: 0 <= i < |e.nodes[n].connections| && e.nodes[n].movable && to != e.nodes[n].pos ==>
      r.nodes[n].connections[i].segment == ExpectedSegment(e.nodes, n, e.nodes[n].connections[i])
    ensures r.nodes[n].movable == e.nodes[n].movable
    ensures forall i :: 0 <= i < |e.nodes[n].connections| ==>
      r.nodes[n].connections[i] == e.nodes[n].connections[i].(segment := r.nodes[n].connections[i].segment)
    ensures r == e.(nodes := r.nodes)
  {
    var node := e.nodes[n];
    if !node.movable || to == node.pos then e
    else
      var cs := node.connections;
      var refreshed := seq(|cs|, i requires 0 <= i < |cs| =>
        cs[i].(segment := ExpectedSegment(e.nodes, n, cs[i])));
      e.(nodes := e.nodes[n := node.(pos := to, connections := refreshed)])
  }

  /** Connections of `m` with every line that touches node `n` recomputed
      from the positions in `nodes`. */
  function RefreshTouching(nodes: map<NodeId, Node>, m: NodeId, n: NodeId): (cs: seq<Connection>)
    requires m in nodes
    requires forall i :: 0 <= i < |nodes[m].connections| ==> nodes[m].connections[i].target in nodes
    ensures |cs| == |nodes[m].connections|
    ensures forall i :: 0 <= i < |cs| ==>
      cs[i] == nodes[m].connections[i].(segment := cs[i].segment)
    ensures forall i :: 0 <= i < |cs| ==>
      if m == n || cs[i].target == n then cs[i].segment == ExpectedSegment(nodes, m, cs[i])
      else cs[i].segment == nodes[m].connections[i].segment
  {
    var conns := nodes[m].connections;
    seq(|conns|, i requires 0 <= i < |conns| =>
      if m == n || conns[i].target == n then conns[i].(segment := ExpectedSegment(nodes, m, conns[i]))
      else conns[i])
  }

  /** Moving nodes and redrawing lines keeps the invariant, since item ids,
      flags and connection targets stay as they were. */
  lemma RedrawKeepsWf(e: Editor, r: Editor)
    requires Wf(e)
    requires r.nodes.Keys == e.nodes.Keys && r == e.(nodes := r.nodes)
    requires forall m :: m in e.nodes ==>
      r.nodes[m].movable == e.nodes[m].movable && |r.nodes[m].connections| == |e.nodes[m].connections|
    requires forall m, i :: m in e.nodes && 0 <= i < |e.nodes[m].connections| ==>
      r.nodes[m].connections[i] == e.nodes[m].connections[i].(segment := r.nodes[m].connections[i].segment)
    ensures Wf(r)
  {
    forall m, i | m in r.nodes && 0 <= i < |r.nodes[m].connections|
      ensures ConnectionWf(r, r.nodes[m].connections[i])
    {
      assert ConnectionWf(e, e.nodes[m].connections[i]);
    }
  }

  predicate TargetsPresent(nodes: map<NodeId, Node>)
  {
    forall m, i :: m in nodes && 0 <= i < |nodes[m].connections| ==> nodes[m].connections[i].target in nodes
  }

  /** Node `n` placed at `to`, then every line touching `n` redrawn. */
  function MoveAndRefresh(nodes: map<NodeId, Node>, n: NodeId, to: Point): (r: map<NodeId, Node>)
    requires n in nodes && TargetsPresent(nodes)
    ensures r.Keys == nodes.Keys
    ensures r[n].pos == to
    ensures forall m :: m in r && m != n ==> r[m].pos == nodes[m].pos
    ensures forall m :: m in r ==> r[m].movable == nodes[m].movable
    ensures forall m :: m in r ==> |r[m].connections| == |nodes[m].connections|
    ensures forall m, i :: m in r && 0 <= i < |r[m].connections| ==>
      r[m].connections[i] == nodes[m].connections[i].(segment := r[m].connections[i].segment)
    ensures forall m, i :: m in r && 0 <= i < |r[m].connections| ==>
      var c := r[m].connections[i];
      if m == n || c.target == n then c.target in r && c.segment == ExpectedSegment(r, m, c)
      else c.segment == nodes[m].connections[i].segment
  {
    var moved := nodes[n := nodes[n].(pos := to)];
    assert forall m :: m in moved ==> moved[m].connections == nodes[m].connections;
    var r := map m | m in moved :: moved[m].(connections := RefreshTouching(moved, m, n));
    assert forall m, c: Connection :: m in r && c.target in r ==> ExpectedSegment(r, m, c) == ExpectedSegment(moved, m, c);
    r
  }

  /** The corrected drag: the position is written first, then every line
      with the moved node at either end is redrawn from the new position. */
  function DragNode(e: Editor, n: NodeId, to: Point): (r: Editor)
    requires Wf(e) && n in e.nodes
    ensures Wf(r)
    ensures !e.nodes[n].movable ==> r == e
    ensures r.nodes.Keys == e.nodes.Keys
    ensures r.nodes[n].pos == (if e.nodes[n].movable then to else e.nodes[n].pos)
    ensures forall m :: m in e.nodes && m != n ==> r.nodes[m].pos == e.nodes[m].pos
    ensures forall m :: m in e.nodes ==> r.nodes[m].movable == e.nodes[m].movable
    ensures forall m :: m in e.nodes ==> |r.nodes[m].connections| == |e.nodes[m].connections|
    ensures forall m, i :: m in e.nodes && 0 <= i < |e.nodes[m].connections| ==>
      r.nodes[m].connections[i] == e.nodes[m].connections[i].(segment := r.nodes[m].connections[i].segment)
    ensures r == e.(nodes := r.nodes)
  {
    var node := e.nodes[n];
    if !node.movable || to == node.pos then e
    else
      var r := e.(nodes := MoveAndRefresh(e.nodes, n, to));
      RedrawKeepsWf(e, r);
      r
  }

  // ------------------------------------------------------------ sessions

  /** One user action on the view. */
  datatype Action =
    | ToggleMode
    | Mouse(event: MouseEvent)
    | Drop(files: seq<DroppedFile>)
    | Drag(node: NodeId, to: Point)

  predicate Admissible(e: Editor, a: Action)
  {
    match a
    case Mouse(ev) => HitsNodes(e, ev)
    case Drag(n, _) => n in e.nodes
    case _ => true
  }

  /** One action as the source handles it: a drag goes through the
      as-written refresh. */
  function ApplyAsWritten(e: Editor, a: Action): (r: Editor)
    requires Wf(e) && Admissible(e, a)
    ensures Wf(r)
    ensures !a.Drag? ==> r == Apply(e, a)
    ensures r.connectionMode == (if a.ToggleMode? then !e.connectionMode else e.connectionMode)
  {
    match a
    case Drag(n, to) => DragNodeAsWritten(e, n, to)
    case _ => Apply(e, a)
  }

  predicate ValidRunAsWritten(e: Editor, actions: seq<Action>)
    requires Wf(e)
    decreases |actions|
  {
    |actions| == 0 ||
      (Admissible(e, actions[0]) && ValidRunAsWritten(ApplyAsWritten(e, actions[0]), actions[1..]))
  }

  /** A session as the source runs it. */
  function RunAsWritten(e: Editor, actions: seq<Action>): (r: Editor)
    requires Wf(e) && ValidRunAsWritten(e, actions)
    ensures Wf(r)
    decreases |actions|
  {
    if |actions| == 0 then e else RunAsWritten(ApplyAsWritten(e, actions[0]), actions[1..])
  }

  /** One action with the corrected drag refresh. */
  function Apply(e: Editor, a: Action): (r: Editor)
    requires Wf(e) && Admissible(e, a)
    ensures Wf(r)
  {
    match a
    case ToggleMode => Toggle(e)
    case Mouse(ev) => HandleMouse(e, ev)
    case Drop(files) => DropFiles(e, files)
    case Drag(n, to) => DragNode(e, n, to)
  }

  /** A sequence of actions each of which fits the state it is applied to. */
  predicate ValidRun(e: Editor, actions: seq<Action>)
    requires Wf(e)
    decreases |actions|
  {
    |actions| == 0 || (Admissible(e, actions[0]) && ValidRun(Apply(e, actions[0]), actions[1..]))
  }

  function Run(e: Editor, actions: seq<Action>): (r: Editor)
    requires Wf(e) && ValidRun(e, actions)
    ensures Wf(r)
    decreases |actions|
  {
    if |actions| == 0 then e else Run(Apply(e, actions[0]), actions[1..])
  }
}

=== FILE: editor_properties.dfy ===
/**
 Properties of the connection editor that relate several operations: toggling
 twice, the drop filter against an independent case-insensitive reading, and
 the freshness of connection lines across whole sessions, together with the
 two ways the source's drag handling leaves a line stale.
 */
module EditorProperties {
  import opened Geometry
  import Text
  import opened ConnectionEditor

  // ---------------------------------------------------------------- toggle

  /** Toggling connection mode twice gives back the same editor: the mode and
      every node's movable flag are restored. */
  lemma ToggleTwiceRestores(e: Editor)
    requires Wf(e)
    ensures Toggle(Toggle(e)) == e
  {
    var r := Toggle(Toggle(e));
    assert r.nodes.Keys == e.nodes.Keys;
    assert forall n :: n in e.nodes ==> r.nodes[n] == e.nodes[n];
  }

  // ------------------------------------------------------------- drop filter

  predicate EndsWithIgnoringCase(path: string, ext: string)
  {
    |ext| <= |path| &&
    forall j :: 0 <= j < |ext| ==> Text.LowerChar(path[|path| - |ext| + j]) == ext[j]
  }

  /** Reference reading of the drop filter: the path's last characters spell
      one of the image extensions when letter case is ignored. */
  predicate HasImageExtension(path: string)
  {
    exists k :: 0 <= k < |ImageExtensions| && EndsWithIgnoringCase(path, ImageExtensions[k])
  }

  lemma EndsWithLower(path: string, ext: string)
    ensures Text.EndsWith(Text.Lower(path), ext) <==> EndsWithIgnoringCase(path, ext)
  {
    var low := Text.Lower(path);
    if |ext| <= |path| {
      var tail := low[|low| - |ext|..];
      assert forall j :: 0 <= j < |ext| ==> tail[j] == Text.LowerChar(path[|path| - |ext| + j]);
      if EndsWithIgnoringCase(path, ext) {
        assert tail == ext;
      }
    }
  }

  /** The filter `path.lower().endswith(extensions)` accepts exactly the
      paths whose ending spells an image extension in any letter case. */
  lemma IsImagePathMatchesReference(path: string)
    ensures IsImagePath(path) <==> HasImageExtension(path)
  {
    forall k | 0 <= k < |ImageExtensions|
      ensures Text.EndsWith(Text.Lower(path), ImageExtensions[k]) <==> EndsWithIgnoringCase(path, ImageExtensions[k])
    {
      EndsWithLower(path, ImageExtensions[k]);
    }
  }

  /** Two paths that differ only in letter case get the same verdict. */
  lemma IsImagePathIgnoresCase(p: string, q: string)
    requires |p| == |q|
    requires forall i :: 0 <= i < |p| ==> Text.LowerChar(p[i]) == Text.LowerChar(q[i])
    ensures IsImagePath(p) <==> IsImagePath(q)
  {
    assert Text.Lower(p) == Text.Lower(q);
  }

  lemma UpperCaseExtensionAccepted()
    ensures IsImagePath("Button.PNG")
  {
    IsImagePathMatchesReference("Button.PNG");
    assert EndsWithIgnoringCase("Button.PNG", ImageExtensions[0]);
  }

  lemma MixedCaseExtensionAccepted()
    ensures IsImagePath("icon.JpEg")
  {
    IsImagePathMatchesReference("icon.JpEg");
    assert EndsWithIgnoringCase("icon.JpEg", ImageExtensions[2]);
  }

  lemma OtherExtensionsRejected()
    ensures !IsImagePath("a.txt")
    ensures !IsImagePath("a.png~")
  {
    RejectedByLastChar("a.txt");
    RejectedByLastChar("a.png~");
  }

  /** Every image extension ends in 'g', 'p' or 'f', so a path whose last
      character lowers to anything else is refused. */
  lemma RejectedByLastChar(path: string)
    requires |path| > 0
    requires var c := Text.LowerChar(path[|path| - 1]); c != 'g' && c != 'p' && c != 'f'
    ensures !IsImagePath(path)
  {
    var l := Text.Lower(path);
    forall k | 0 <= k < |ImageExtensions|
      ensures !Text.EndsWith(l, ImageExtensions[k])
    {
      var ext := ImageExtensions[k];
      assert ext[|ext| - 1] != l[|l| - 1];
    }
  }

  // --------------------------------------------------------- line freshness

  lemma ToggleKeepsLinesFresh(e: Editor)
    requires LinesFresh(e)
    ensures LinesFresh(Toggle(e))
  {
  }

  lemma HandleMouseKeepsLinesFresh(e: Editor, ev: MouseEvent)
    requires Wf(e) && LinesFresh(e) && HitsNodes(e, ev)
    ensures LinesFresh(HandleMouse(e, ev))
  {
  }

  lemma {:induction false} DropKeepsLinesFresh(e: Editor, files: seq<DroppedFile>)
    requires Wf(e) && LinesFresh(e)
    ensures LinesFresh(DropFiles(e, files))
    decreases |files|
  {
    if |files| > 0 {
      var next := if Accepts(files[0]) then AddImageNode(e, files[0]) else e;
      DropKeepsLinesFresh(next, files[1..]);
    }
  }

  /** With the refresh written after the position and applied to lines at
      both ends, every connection line still shows its nodes' anchors. */
  lemma DragNodeKeepsLinesFresh(e: Editor, n: NodeId, to: Point)
    requires Wf(e) && LinesFresh(e) && n in e.nodes
    ensures LinesFresh(DragNode(e, n, to))
  {
    var node := e.nodes[n];
    if node.movable && to != node.pos {
      var r := DragNode(e, n, to);
      assert r.nodes == MoveAndRefresh(e.nodes, n, to);
      forall m, i | m in r.nodes && 0 <= i < |r.nodes[m].connections|
        ensures r.nodes[m].connections[i].target in r.nodes
        ensures r.nodes[m].connections[i].segment == ExpectedSegment(r.nodes, m, r.nodes[m].connections[i])
      {
        var c := e.nodes[m].connections[i];
        if m != n && c.target != n {
          assert ExpectedSegment(r.nodes, m, c) == ExpectedSegment(e.nodes, m, c);
        }
      }
    }
  }

  /** With the corrected drag refresh, no action leaves a line stale. */
  lemma ApplyKeepsLinesFresh(e: Editor, a: Action)
    requires Wf(e) && LinesFresh(e) && Admissible(e, a)
    ensures LinesFresh(Apply(e, a))
  {
    match a
    case ToggleMode => ToggleKeepsLinesFresh(e);
    case Mouse(ev) => HandleMouseKeepsLinesFresh(e, ev);
    case Drop(files) => DropKeepsLinesFresh(e, files);
    case Drag(n, to) => DragNodeKeepsLinesFresh(e, n, to);
  }

  /** With the corrected drag refresh, no session leaves a line stale. */
  lemma {:induction false} RunKeepsLinesFresh(e: Editor, actions: seq<Action>)
    requires Wf(e) && LinesFresh(e) && ValidRun(e, actions)
    ensures LinesFresh(Run(e, actions))
    decreases |actions|
  {
    if |actions| > 0 {
      ApplyKeepsLinesFresh(e, actions[0]);
      RunKeepsLinesFresh(Apply(e, actions[0]), actions[1..]);
    }
  }

  /** In every session started from an empty view with the corrected drag
      refresh, every connection line joins the current anchors of its two
      nodes and every node is movable exactly when connection mode is off. */
  lemma SessionInvariants(actions: seq<Action>)
    requires ValidRun(Init(), actions)
    ensures LinesFresh(Run(Init(), actions))
    ensures var r := Run(Init(), actions);
      forall n :: n in r.nodes ==> r.nodes[n].movable == !r.connectionMode
  {
    RunKeepsLinesFresh(Init(), actions);
  }

  // ------------------------------------------------ sessions as written

  /** In every session the source runs from an empty view, every node is
      movable exactly when connection mode is off, and the drawing fields
      are set and cleared together. */
  lemma AsWrittenSessionInvariants(actions: seq<Action>)
    requires ValidRunAsWritten(Init(), actions)
    ensures var r := RunAsWritten(Init(), actions);
      && (forall n :: n in r.nodes ==> r.nodes[n].movable == !r.connectionMode)
      && (r.connecting <==> r.startItem.Some?)
      && (r.connecting <==> r.tempLine.Some?)
  {
  }

  /** Without drags, a session as the source runs it is the corrected one. */
  lemma {:induction false} DragFreeRunsAgree(e: Editor, actions: seq<Action>)
    requires Wf(e) && ValidRunAsWritten(e, actions)
    requires forall i :: 0 <= i < |actions| ==> !actions[i].Drag?
    ensures ValidRun(e, actions)
    ensures RunAsWritten(e, actions) == Run(e, actions)
    decreases |actions|
  {
    if |actions| > 0 {
      var rest := actions[1..];
      assert forall i :: 0 <= i < |rest| ==> rest[i] == actions[i + 1];
      DragFreeRunsAgree(ApplyAsWritten(e, actions[0]), rest);
    }
  }

  /** As written, a session without drags keeps every line drawn between
      the current anchors of its nodes. */
  lemma DragFreeRunKeepsLinesFresh(e: Editor, actions: seq<Action>)
    requires Wf(e) && LinesFresh(e) && ValidRunAsWritten(e, actions)
    requires forall i :: 0 <= i < |actions| ==> !actions[i].Drag?
    ensures LinesFresh(RunAsWritten(e, actions))
  {
    DragFreeRunsAgree(e, actions);
    RunKeepsLinesFresh(e, actions);
  }

  // ------------------------------------------------ drag handling as written

  /** Moving the TARGET of a connection leaves that line where it was: the
      entry lives only in the source node's list, so the target's
      itemChange never sees it. */
  lemma TargetMoveLeavesLineStale(e: Editor, o: NodeId, i: nat, to: Point)
    requires Wf(e) && LinesFresh(e)
    requires o in e.nodes && i < |e.nodes[o].connections|
    requires e.nodes[o].connections[i].target != o
    requires e.nodes[e.nodes[o].connections[i].target].movable
    requires to != e.nodes[e.nodes[o].connections[i].target].pos
    ensures !LinesFresh(DragNodeAsWritten(e, e.nodes[o].connections[i].target, to))
    ensures LinesFresh(DragNode(e, e.nodes[o].connections[i].target, to))
  {
    var c := e.nodes[o].connections[i];
    var r := DragNodeAsWritten(e, c.target, to);
    assert r.nodes[o] == e.nodes[o];
    assert r.nodes[o].connections[i].segment.dest == Add(e.nodes[c.target].pos, c.endOffset);
    assert ExpectedSegment(r.nodes, o, c).dest == Add(to, c.endOffset);
    DragNodeKeepsLinesFresh(e, c.target, to);
  }

  /** Moving the SOURCE of a connection redraws its line from the node's
      position before the move, because ItemPositionChange is delivered
      before the new position is written. */
  lemma OwnerMoveLagsBehind(e: Editor, o: NodeId, i: nat, to: Point)
    requires Wf(e) && LinesFresh(e)
    requires o in e.nodes && i < |e.nodes[o].connections|
    requires e.nodes[o].movable && to != e.nodes[o].pos
    ensures var r := DragNodeAsWritten(e, o, to);
      && r.nodes[o].connections[i].segment.source == Anchor(e.nodes, o, e.nodes[o].connections[i].startOffset)
      && !LinesFresh(r)
    ensures LinesFresh(DragNode(e, o, to))
  {
    var c := e.nodes[o].connections[i];
    var r := DragNodeAsWritten(e, o, to);
    assert r.nodes[o].connections[i].segment.source == Add(e.nodes[o].pos, c.startOffset);
    assert r.nodes[o].connections[i].startOffset == c.startOffset;
    assert ExpectedSegment(r.nodes, o, r.nodes[o].connections[i]).source == Add(to, c.startOffset);
    DragNodeKeepsLinesFresh(e, o, to);
  }
}

=== FILE: geometry.dfy ===
/**
 Scene coordinates. The editor's items are never rotated or scaled (zooming
 scales the view, not the items), so an item's local-to-scene mapping is a
 translation by the item's position. Coordinates are integers here.
 */
module Geometry {

  datatype Point = Point(x: int, y: int)

  const Origin := Point(0, 0)

  function Add(p: Point, q: Point): Point
  {
    Point(p.x + q.x, p.y + q.y)
  }

  function Sub(p: Point, q: Point): Point
  {
    Point(p.x - q.x, p.y - q.y)
  }

  /** A straight line item from `source` to `dest`, in scene coordinates. */
  datatype Segment = Segment(source: Point, dest: Point)
}

=== FILE: step_runner.dfy ===
/**
 The screen-automation runner of test/json_test/main.py: the largest index
 among the `Step[N]` keys of the configuration, the ordered step list built
 from the keys `Step[1]`..`Step[max]`, the print loop over that list, the
 centre of a template match, and the click-every-step loop.

 The configuration is the loaded JSON object as a finite map from keys to
 string values. Everything `match_template` observes on screen (file checks,
 image decoding, polling against the confidence threshold until the timeout)
 is summarised by a MatchOutcome that the caller supplies per attempt.
 */
module StepRunner {
  import opened Wrappers
  import opened Geometry
  import Text

  type Config = map<string, string>

  const StepPrefix: string := "Step["

  /** `key.split('[')[1].split(']')[0]` for a key that starts with "Step[":
      the text after the first '[' up to the next '[' or ']'. */
  function BracketContent(key: string): (r: string)
    requires Text.StartsWith(key, StepPrefix)
    ensures '[' !in r && ']' !in r
    ensures r <= key[|StepPrefix|..]
    ensures |r| == |key| - |StepPrefix| || key[|StepPrefix| + |r|] == '[' || key[|StepPrefix| + |r|] == ']'
  {
    Text.FirstField(Text.FirstField(key[|StepPrefix|..], '['), ']')
  }

  /** The step index a key contributes, or None when the key does not start
      with "Step[" or its bracket content is not an integer. */
  function StepIndex(key: string): (r: Option<int>)
    ensures r.Some? ==> Text.StartsWith(key, StepPrefix)
    ensures r.Some? ==> exists i :: |StepPrefix| <= i < |key| && Text.IsDigit(key[i])
  {
    if Text.StartsWith(key, StepPrefix) then Text.ParseInt(BracketContent(key)) else None
  }

  /** The key `f"Step[{i}]"`: the prefix, the decimal digits of i, and a
      closing bracket. */
  function StepKey(i: nat): (r: string)
    ensures Text.StartsWith(r, StepPrefix) && r[|r| - 1] == ']'
    ensures |r| >= |StepPrefix| + 2
  {
    StepPrefix + Text.NatToDecimal(i) + "]"
  }

  /** `m` is the largest value `index` yields on `keys`, floored at 0: at
      least 0, at least every yielded value, and either 0 or one of them. */
  ghost predicate IsMaxOf(keys: set<string>, index: string -> Option<int>, m: int)
  {
    && m >= 0
    && (forall k :: k in keys && index(k).Some? ==> index(k).value <= m)
    && (m == 0 || exists k :: k in keys && index(k) == Some(m))
  }

  /** `m` is what get_max_step_value returns for `config`. */
  ghost predicate IsMaxStep(config: Config, m: int)
  {
    IsMaxOf(config.Keys, StepIndex, m)
  }

  /** The scan of get_max_step_value: every key once, starting from 0 and
      keeping the largest index the key yields. */
  method MaxIndex(keys: set<string>, index: string -> Option<int>) returns (maxStep: int)
    ensures maxStep >= 0
    ensures forall k :: k in keys && index(k).Some? ==> index(k).value <= maxStep
    ensures maxStep == 0 || exists k :: k in keys && index(k) == Some(maxStep)
  {
    maxStep := 0;
    var pending := keys;
    while pending != {}
      invariant pending <= keys
      invariant maxStep >= 0
      invariant forall k :: k in keys && k !in pending && index(k).Some? ==> index(k).value <= maxStep
      invariant maxStep == 0 || exists k :: k in keys && index(k) == Some(maxStep)
      decreases pending
    {
      var key :| key in pending;
      match index(key) {
        case Some(y) =>
          if y > maxStep {
            maxStep := y;
          }
        case None =>
      }
      pending := pending - {key};
    }
  }

  /** get_max_step_value: the scan over the configuration's keys, where a
      key yields nothing when it does not start with "Step[" or int()
      raises ValueError on its bracket content. */
  method GetMaxStepValue(config: Config) returns (maxStep: int)
    ensures IsMaxStep(config, maxStep)
  {
    maxStep := MaxIndex(config.Keys, StepIndex);
  }

  /** The step array of Start_ON: the values of `Step[1]`..`Step[maxStep]`
      that are present, in increasing index order, missing ones skipped. */
  function StepArray(config: Config, maxStep: int): (steps: seq<string>)
    ensures |steps| <= if maxStep < 0 then 0 else maxStep
    ensures maxStep >= 0 ==>
      (|steps| == maxStep <==> forall i :: 1 <= i <= maxStep ==> StepKey(i) in config)
    decreases maxStep
  {
    if maxStep <= 0 then []
    else
      var earlier := StepArray(config, maxStep - 1);
      var key := StepKey(maxStep);
      if key in config then earlier + [config[key]] else earlier
  }

  /** The indices whose keys contribute to StepArray, in the order used. */
  function StepSources(config: Config, maxStep: int): (idx: seq<nat>)
    ensures forall j :: 0 <= j < |idx| ==> 1 <= idx[j] <= maxStep && StepKey(idx[j]) in config
    ensures forall j, k :: 0 <= j < k < |idx| ==> idx[j] < idx[k]
    ensures forall i :: 1 <= i <= maxStep && StepKey(i) in config ==> i in idx
    decreases maxStep
  {
    if maxStep <= 0 then []
    else
      var earlier := StepSources(config, maxStep - 1);
      if StepKey(maxStep) in config then earlier + [maxStep] else earlier
  }

  // ------------------------------------------------------------ print loop

  datatype PrintOutcome =
    | Printed(lines: seq<string>)
    | IndexError(index: nat, lines: seq<string>)

  /** `f"step_array[{index}]: {value}"`. */
  function StepLine(index: nat, value: string): string
  {
    "step_array[" + Text.NatToDecimal(index) + "]: " + value
  }

  /** `for index in range(from, count): print(... steps[index] ...)`, stopping
      with IndexError at the first index past the end of `steps`. */
  function PrintRange(steps: seq<string>, from: nat, count: nat): (r: PrintOutcome)
    requires from <= |steps|
    ensures r.Printed? <==> count <= |steps| || count <= from
    ensures r.IndexError? ==> r.index == |steps|
    ensures |r.lines| == (if r.Printed? then (if count <= from then 0 else count - from) else |steps| - from)
    ensures forall j :: 0 <= j < |r.lines| ==> r.lines[j] == StepLine(from + j, steps[from + j])
    decreases count - from
  {
    if count <= from then Printed([])
    else if from == |steps| then IndexError(from, [])
    else
      var line := StepLine(from, steps[from]);
      match PrintRange(steps, from + 1, count)
      case Printed(rest) => Printed([line] + rest)
      case IndexError(k, rest) => IndexError(k, [line] + rest)
  }

  /** The print loop as written: it runs over `range(max_step_value)`. */
  function PrintStepsAsWritten(steps: seq<string>, maxStep: int): (r: PrintOutcome)
    ensures r.Printed? <==> maxStep <= |steps|
    ensures r.IndexError? ==> r.index == |steps| && |r.lines| == |steps|
  {
    PrintRange(steps, 0, if maxStep < 0 then 0 else maxStep)
  }

  /** The print loop over `range(len(step_array))`: every entry printed once,
      in order, and never an IndexError. */
  function PrintSteps(steps: seq<string>): (r: PrintOutcome)
    ensures r.Printed?
    ensures |r.lines| == |steps|
    ensures forall j :: 0 <= j < |steps| ==> r.lines[j] == StepLine(j, steps[j])
  {
    PrintRange(steps, 0, |steps|)
  }

  // ------------------------------------------------------- template match

  /** What one call of match_template observes. */
  datatype MatchOutcome =
    | TemplateMissing
    | TemplateUnreadable
    | TimedOut
    | Matched(topLeft: Point, width: int, height: int)

  /** `(x + w // 2, y + h // 2)`. Python's `//` rounds toward negative
      infinity, which for the divisor 2 is what Dafny's `/` does. */
  function Centre(topLeft: Point, width: int, height: int): (c: Point)
    ensures 2 * (c.x - topLeft.x) <= width <= 2 * (c.x - topLeft.x) + 1
    ensures 2 * (c.y - topLeft.y) <= height <= 2 * (c.y - topLeft.y) + 1
    ensures width >= 1 ==> topLeft.x <= c.x < topLeft.x + width
    ensures height >= 1 ==> topLeft.y <= c.y < topLeft.y + height
  {
    Point(topLeft.x + width / 2, topLeft.y + height / 2)
  }

  /** match_template's result: the centre of the match, or None when the
      file is missing, cannot be read, or no match reached the confidence
      threshold before the timeout. */
  function MatchTemplate(outcome: MatchOutcome): (location: Option<Point>)
    ensures location.Some? <==> outcome.Matched?
    ensures outcome.Matched? && outcome.width >= 1 && outcome.height >= 1 ==>
      var c := location.value;
      var p := outcome.topLeft;
      p.x <= c.x < p.x + outcome.width && p.y <= c.y < p.y + outcome.height
    ensures outcome.Matched? ==> location == Some(Centre(outcome.topLeft, outcome.width, outcome.height))
  {
    match outcome
    case Matched(p, w, h) => Some(Centre(p, w, h))
    case _ => None
  }

  // ---------------------------------------------------------- click loop

  datatype Attempt = Attempt(path: string, location: Option<Point>)

  /** The clicks one attempt issues: match_template clicks at the centre it
      moved to, and Click_step_by_step clicks the returned location again. */
  function AttemptClicks(a: Attempt): seq<Point>
  {
    match a.location
    case Some(p) => [p, p]
    case None => []
  }

  function ClicksOf(log: seq<Attempt>): seq<Point>
  {
    if |log| == 0 then [] else ClicksOf(log[..|log| - 1]) + AttemptClicks(log[|log| - 1])
  }

  /** Click_step_by_step: every step is attempted, in order, whatever the
      earlier attempts returned. `screen(j, path)` is what the j-th attempt
      observes for `path`. */
  method ClickStepByStep(steps: seq<string>, screen: (nat, string) -> MatchOutcome)
    returns (log: seq<Attempt>, clicks: seq<Point>)
    ensures |log| == |steps|
    ensures forall j :: 0 <= j < |steps| ==>
      log[j] == Attempt(steps[j], MatchTemplate(screen(j, steps[j])))
    ensures clicks == ClicksOf(log)
  {
    log := [];
    clicks := [];
    for j := 0 to |steps|
      invariant |log| == j
      invariant forall k :: 0 <= k < j ==>
        log[k] == Attempt(steps[k], MatchTemplate(screen(k, steps[k])))
      invariant clicks == ClicksOf(log)
    {
      var location := MatchTemplate(screen(j, steps[j]));
      var attempt := Attempt(steps[j], location);
      if location.Some? {
        clicks := clicks + [location.value, location.value];
      }
      log := log + [attempt];
      assert log[..|log| - 1] == log[..j];
    }
  }

  // ------------------------------------------------------------ Start_ON

  datatype StartReport =
    | Crashed(maxStep: int, printed: seq<string>, badIndex: nat)
    | AdbStub(maxStep: int, printed: seq<string>)
    | Ran(maxStep: int, printed: seq<string>, log: seq<Attempt>, clicks: seq<Point>)

  /** Start_ON as written: the print loop runs to `max_step_value`, so a
      missing `Step[i]` stops the run with IndexError before any click. */
  method StartOnAsWritten(config: Config, adbMode: bool, screen: (nat, string) -> MatchOutcome)
    returns (r: StartReport)
    ensures IsMaxStep(config, r.maxStep)
    ensures r.Crashed? <==> exists i :: 1 <= i <= r.maxStep && StepKey(i) !in config
    ensures r.Crashed? ==> r.badIndex == |StepArray(config, r.maxStep)|
    ensures r.AdbStub? <==> adbMode && !r.Crashed?
    ensures r.Ran? ==>
      |r.log| == |StepArray(config, r.maxStep)| &&
      forall j :: 0 <= j < |r.log| ==> r.log[j].path == StepArray(config, r.maxStep)[j]
  {
    var maxStep := GetMaxStepValue(config);
    var steps := StepArray(config, maxStep);
    match PrintStepsAsWritten(steps, maxStep)
    case IndexError(k, lines) =>
      r := Crashed(maxStep, lines, k);
    case Printed(lines) =>
      if adbMode {
        r := AdbStub(maxStep, lines);
      } else {
        var log, clicks := ClickStepByStep(steps, screen);
        r := Ran(maxStep, lines, log, clicks);
      }
  }

  /** Start_ON with the print loop bounded by the array's length: it never
      crashes, and outside ADB mode it attempts every collected step. */
  method StartOn(config: Config, adbMode: bool, screen: (nat, string) -> MatchOutcome)
    returns (r: StartReport)
    ensures IsMaxStep(config, r.maxStep)
    ensures !r.Crashed?
    ensures r.AdbStub? <==> adbMode
    ensures |r.printed| == |StepArray(config, r.maxStep)|
    ensures forall j :: 0 <= j < |r.printed| ==> r.printed[j] == StepLine(j, StepArray(config, r.maxStep)[j])
    ensures r.Ran? ==>
      |r.log| == |StepArray(config, r.maxStep)| &&
      forall j :: 0 <= j < |r.log| ==> r.log[j].path == StepArray(config, r.maxStep)[j]
  {
    var maxStep := GetMaxStepValue(config);
    var steps := StepArray(config, maxStep);
    var lines := PrintSteps(steps).lines;
    if adbMode {
      r := AdbStub(maxStep, lines);
    } else {
      var log, clicks := ClickStepByStep(steps, screen);
      r := Ran(maxStep, lines, log, clicks);
    }
  }
}

=== FILE: step_runner_properties.dfy ===
/**
 Properties of the step runner: the key format round-trips through the key
 parser, the maximum step is unique and ignores unparsable keys, the step
 array lists exactly the present keys in index order, and a gap below the
 maximum makes the as-written print loop fail.
 */
module StepRunnerProperties {
  import opened Wrappers
  import Text
  import opened StepRunner

  /** The key the array loop looks up for index i is read back as i by
      get_max_step_value. */
  lemma StepKeyRoundTrip(i: nat)
    ensures StepIndex(StepKey(i)) == Some(i)
  {
    var d := Text.NatToDecimal(i);
    var key := StepKey(i);
    assert key[..|StepPrefix|] == StepPrefix;
    var tail := key[|StepPrefix|..];
    assert tail == d + "]";
    Text.FirstFieldAppend(tail, '[', "");
    assert tail + "" == tail;
    Text.FirstFieldAppend(d, ']', "]");
    assert BracketContent(key) == d;
    Text.ParseIntOfDecimal(i);
  }

  /** get_max_step_value has exactly one possible answer per configuration. */
  lemma MaxStepUnique(config: Config, m1: int, m2: int)
    requires IsMaxStep(config, m1) && IsMaxStep(config, m2)
    ensures m1 == m2
  {
  }

  /** With no key starting with "Step[", the maximum step is 0. */
  lemma NoStepKeysGivesZero(config: Config, m: int)
    requires forall k :: k in config ==> !Text.StartsWith(k, StepPrefix)
    requires IsMaxStep(config, m)
    ensures m == 0
  {
  }

  /** A key whose bracket content is not an integer plays no part in the
      maximum: removing it leaves the answer unchanged. */
  lemma UnparsableKeyIgnored(config: Config, key: string, m: int)
    requires key in config && StepIndex(key).None?
    ensures IsMaxStep(config, m) <==> IsMaxStep(config - {key}, m)
  {
    assert (config - {key}).Keys == config.Keys - {key};
    NoneKeyIgnored(config.Keys, StepIndex, key, m);
  }

  lemma NoneKeyIgnored(keys: set<string>, index: string -> Option<int>, key: string, m: int)
    requires key in keys && index(key).None?
    ensures IsMaxOf(keys, index, m) <==> IsMaxOf(keys - {key}, index, m)
  {
    if IsMaxOf(keys, index, m) && m != 0 {
      var k :| k in keys && index(k) == Some(m);
      assert k in keys - {key};
    }
    if IsMaxOf(keys - {key}, index, m) && m != 0 {
      var k :| k in keys - {key} && index(k) == Some(m);
      assert k in keys;
    }
  }

  /** The step array holds, position by position, the values of the keys
      StepSources names: every present `Step[i]` with 1 <= i <= max, in
      increasing order of i. */
  lemma {:induction false} StepArrayContents(config: Config, maxStep: int)
    ensures |StepArray(config, maxStep)| == |StepSources(config, maxStep)|
    ensures forall j :: 0 <= j < |StepSources(config, maxStep)| ==>
      StepArray(config, maxStep)[j] == config[StepKey(StepSources(config, maxStep)[j])]
    decreases maxStep
  {
    if maxStep > 0 {
      StepArrayContents(config, maxStep - 1);
      var key := StepKey(maxStep);
      var steps, idx := StepArray(config, maxStep - 1), StepSources(config, maxStep - 1);
      var all, allIdx := StepArray(config, maxStep), StepSources(config, maxStep);
      if key in config {
        assert all == steps + [config[key]] && allIdx == idx + [maxStep];
        forall j | 0 <= j < |allIdx|
          ensures all[j] == config[StepKey(allIdx[j])]
        {
          if j < |idx| {
            assert all[j] == steps[j] && allIdx[j] == idx[j];
          }
        }
      } else {
        assert all == steps && allIdx == idx;
      }
    }
  }

  /** Without gaps the array is aligned: entry j is the value of `Step[j+1]`. */
  lemma {:induction false} GaplessStepArrayAligned(config: Config, maxStep: nat)
    requires forall i :: 1 <= i <= maxStep ==> StepKey(i) in config
    ensures |StepArray(config, maxStep)| == maxStep
    ensures forall j :: 0 <= j < maxStep ==> StepArray(config, maxStep)[j] == config[StepKey(j + 1)]
    decreases maxStep
  {
    if maxStep > 0 {
      GaplessStepArrayAligned(config, maxStep - 1);
    }
  }

  /** Any missing `Step[i]` below the maximum makes the array shorter than
      the maximum, and the as-written print loop then fails at the index
      just past the array. */
  lemma GapMakesPrintLoopFail(config: Config, maxStep: int, i: int)
    requires IsMaxStep(config, maxStep)
    requires 1 <= i <= maxStep && StepKey(i) !in config
    ensures |StepArray(config, maxStep)| < maxStep
    ensures PrintStepsAsWritten(StepArray(config, maxStep), maxStep) ==
      IndexError(|StepArray(config, maxStep)|, PrintSteps(StepArray(config, maxStep)).lines)
  {
    var steps := StepArray(config, maxStep);
    var r := PrintStepsAsWritten(steps, maxStep);
    var p := PrintSteps(steps);
    assert r.lines == p.lines;
  }

  /** A configuration with exactly the keys Step[a] and Step[b], a <= b,
      has maximum step b. */
  lemma TwoKeyMax(config: Config, a: nat, b: nat)
    requires a <= b && config.Keys == {StepKey(a), StepKey(b)}
    ensures IsMaxStep(config, b)
  {
    StepKeyRoundTrip(a);
    StepKeyRoundTrip(b);
    TwoKeysMaxOf(config.Keys, StepIndex, StepKey(a), StepKey(b), a, b);
  }

  /** The same for any key parser: two keys that yield a <= b give b. */
  lemma TwoKeysMaxOf(keys: set<string>, index: string -> Option<int>, ka: string, kb: string, a: int, b: int)
    requires keys == {ka, kb} && index(ka) == Some(a) && index(kb) == Some(b) && 0 <= a <= b
    ensures IsMaxOf(keys, index, b)
  {
    assert kb in keys;
  }

  /** The key "Step[\x1c7]" yields no index: `int()` does not strip the
      control character U+001C, so get_max_step_value skips the key. */
  lemma SeparatorKeySkipped()
    ensures StepIndex("Step[\U{1c}7]") == None
  {
    var key := "Step[\U{1c}7]";
    assert Text.StartsWith(key, StepPrefix);
    assert key[|StepPrefix|..] == "\U{1c}7]";
    Text.FirstFieldAppend("\U{1c}7]", '[', "");
    assert "\U{1c}7]" + "" == "\U{1c}7]";
    Text.FirstFieldAppend("\U{1c}7", ']', "]");
    assert BracketContent(key) == "\U{1c}7";
    Text.ParseIntRejectsLeadingOther("\U{1c}7");
  }

  /** In {"Step[1]": "a.png", "Step[3]": "c.png"} the maximum step is 3. */
  lemma GapExampleMax()
    ensures IsMaxStep(map["Step[1]" := "a.png", "Step[3]" := "c.png"], 3)
  {
    var config := map["Step[1]" := "a.png", "Step[3]" := "c.png"];
    assert StepKey(1) == "Step[1]";
    assert StepKey(3) == "Step[3]";
    TwoKeyMax(config, 1, 3);
  }

  /** ... its step array is ["a.png", "c.png"]: "Step[2]" is skipped, so the
      array has two entries for a maximum of three ... */
  lemma GapExampleArray()
    ensures StepArray(map["Step[1]" := "a.png", "Step[3]" := "c.png"], 3) == ["a.png", "c.png"]
  {
    var config := map["Step[1]" := "a.png", "Step[3]" := "c.png"];
    assert StepKey(1) == "Step[1]";
    assert StepKey(2) == "Step[2]";
    assert StepKey(3) == "Step[3]";
    assert StepArray(config, 1) == ["a.png"];
    assert StepArray(config, 2) == ["a.png"];
  }

  /** ... and the as-written print loop stops with IndexError at
      step_array[2], before any step is attempted. */
  lemma GapCrashesPrintLoop()
    ensures var config := map["Step[1]" := "a.png", "Step[3]" := "c.png"];
      && IsMaxStep(config, 3)
      && StepArray(config, 3) == ["a.png", "c.png"]
      && PrintStepsAsWritten(StepArray(config, 3), 3).IndexError?
      && PrintStepsAsWritten(StepArray(config, 3), 3).index == 2
  {
    GapExampleMax();
    GapExampleArray();
    var r := PrintStepsAsWritten(["a.png", "c.png"], 3);
    assert r.IndexError? && r.index == 2;
  }

  /** Every click lands on the location of a found attempt, and every found
      attempt is clicked. */
  lemma {:induction false} ClicksAtFoundCentres(log: seq<Attempt>)
    ensures forall p :: p in ClicksOf(log) ==>
      exists j :: 0 <= j < |log| && log[j].location == Some(p)
    ensures forall j :: 0 <= j < |log| && log[j].location.Some? ==>
      log[j].location.value in ClicksOf(log)
    decreases |log|
  {
    if |log| > 0 {
      var init := log[..|log| - 1];
      ClicksAtFoundCentres(init);
      forall p | p in ClicksOf(log)
        ensures exists j :: 0 <= j < |log| && log[j].location == Some(p)
      {
        if p in ClicksOf(init) {
          var j :| 0 <= j < |init| && init[j].location == Some(p);
          assert log[j] == init[j];
        } else {
          assert log[|log| - 1].location == Some(p);
        }
      }
      forall j | 0 <= j < |log| && log[j].location.Some?
        ensures log[j].location.value in ClicksOf(log)
      {
        if j < |log| - 1 {
          assert log[j] == init[j];
        }
      }
    }
  }
}

=== FILE: text.dfy ===
/**
 String helpers with the Python semantics the editor and the step runner rely
 on: `str.lower()` (ASCII letters only), `startswith`, `endswith`,
 `str.split(sep)[0]`, decimal formatting of a natural number, and `int()` on a
 base-10 literal.
 */
module Text {
  import opened Wrappers

  predicate IsDigit(c: char)
  {
    '0' <= c <= '9'
  }

  predicate IsUpper(c: char)
  {
    'A' <= c <= 'Z'
  }

  /** The characters `int()` strips from both ends of ASCII text: space, tab,
      line feed, vertical tab, form feed and carriage return. Unlike
      `str.strip()`, `int()` does not strip U+001C..U+001F. */
  predicate IsSpace(c: char)
  {
    c == ' ' || 9 <= c as int <= 13
  }

  predicate AllDigits(s: string)
  {
    forall i :: 0 <= i < |s| ==> IsDigit(s[i])
  }

  /** `c.lower()` for one character: upper-case ASCII letters map to their
      lower-case form, every other character is kept. */
  function LowerChar(c: char): (d: char)
    ensures !IsUpper(d)
    ensures d != c <==> IsUpper(c)
    ensures IsUpper(c) ==> d as int - c as int == 'a' as int - 'A' as int
  {
    if IsUpper(c) then (c as int + 32) as char else c
  }

  function Lower(s: string): string
  {
    seq(|s|, i requires 0 <= i < |s| => LowerChar(s[i]))
  }

  predicate StartsWith(s: string, prefix: string)
  {
    |prefix| <= |s| && s[..|prefix|] == prefix
  }

  predicate EndsWith(s: string, suffix: string)
  {
    |suffix| <= |s| && s[|s| - |suffix|..] == suffix
  }

  /** `s.split(sep)[0]`: everything before the first `sep`, or all of `s`. */
  function FirstField(s: string, sep: char): (r: string)
    ensures r <= s
    ensures sep !in r
    ensures |r| == |s| || s[|r|] == sep
  {
    if |s| == 0 || s[0] == sep then [] else [s[0]] + FirstField(s[1..], sep)
  }

  /** A field that contains no separator runs on into what follows it. */
  lemma {:induction false} FirstFieldAppend(s: string, sep: char, rest: string)
    requires sep !in s
    ensures FirstField(s + rest, sep) == s + FirstField(rest, sep)
    decreases |s|
  {
    if |s| > 0 {
      assert (s + rest)[0] == s[0] && s[0] != sep;
      assert (s + rest)[1..] == s[1..] + rest;
      assert FirstField(s + rest, sep) == [s[0]] + FirstField(s[1..] + rest, sep);
      FirstFieldAppend(s[1..], sep, rest);
      assert [s[0]] + (s[1..] + FirstField(rest, sep)) == s + FirstField(rest, sep);
    } else {
      assert s + rest == rest;
    }
  }

  function TrimStart(s: string): (r: string)
    ensures |r| <= |s| && r == s[|s| - |r|..]
    ensures |r| == 0 || !IsSpace(r[0])
  {
    if |s| > 0 && IsSpace(s[0]) then TrimStart(s[1..]) else s
  }

  function TrimEnd(s: string): (r: string)
    ensures r <= s
    ensures |r| == 0 || !IsSpace(r[|r| - 1])
  {
    if |s| > 0 && IsSpace(s[|s| - 1]) then TrimEnd(s[..|s| - 1]) else s
  }

  /** `s.strip()` restricted to the characters of IsSpace. */
  function Strip(s: string): string
  {
    TrimEnd(TrimStart(s))
  }

  function DigitValue(c: char): nat
    requires IsDigit(c)
  {
    c as int - '0' as int
  }

  function DigitChar(d: nat): (c: char)
    requires d < 10
    ensures IsDigit(c) && DigitValue(c) == d
  {
    ('0' as int + d) as char
  }

  /** The value of a string of decimal digits, most significant first. */
  function DigitsValue(s: string): nat
    requires AllDigits(s)
  {
    if |s| == 0 then 0 else DigitsValue(s[..|s| - 1]) * 10 + DigitValue(s[|s| - 1])
  }

  /** `str(n)` for a natural number: its canonical decimal spelling. */
  function NatToDecimal(n: nat): (r: string)
    ensures |r| >= 1
    ensures AllDigits(r)
    ensures r[0] == '0' ==> n == 0
  {
    if n < 10 then [DigitChar(n)] else NatToDecimal(n / 10) + [DigitChar(n % 10)]
  }

  /** The digit part `int()` accepts: digits, where single underscores may
      separate two digits. */
  predicate DigitGroups(s: string)
  {
    |s| > 0 && IsDigit(s[0]) && GroupTail(s[1..])
  }

  predicate GroupTail(s: string)
  {
    if |s| == 0 then true
    else if IsDigit(s[0]) then GroupTail(s[1..])
    else |s| >= 2 && s[0] == '_' && IsDigit(s[1]) && GroupTail(s[2..])
  }

  function RemoveUnderscores(s: string): (r: string)
    ensures '_' !in r
  {
    if |s| == 0 then []
    else if s[0] == '_' then RemoveUnderscores(s[1..])
    else [s[0]] + RemoveUnderscores(s[1..])
  }

  lemma {:induction false} GroupTailDigits(s: string)
    requires GroupTail(s)
    ensures AllDigits(RemoveUnderscores(s))
    decreases |s|
  {
    if |s| == 0 {
    } else if IsDigit(s[0]) {
      GroupTailDigits(s[1..]);
    } else {
      GroupTailDigits(s[2..]);
      assert RemoveUnderscores(s) == [s[1]] + RemoveUnderscores(s[2..]) by {
        assert s[1..][1..] == s[2..];
      }
    }
  }

  function ParseDigits(s: string): Option<nat>
  {
    if DigitGroups(s) then
      GroupTailDigits(s[1..]);
      assert RemoveUnderscores(s) == [s[0]] + RemoveUnderscores(s[1..]);
      Some(DigitsValue(RemoveUnderscores(s)))
    else
      None
  }

  /** `int(s)` in base 10: optional surrounding white space, an optional sign,
      then digit groups; None where Python raises ValueError for the form of
      the text. The limit on the number of digits that recent Python
      versions add is not part of this model. */
  function ParseInt(s: string): (r: Option<int>)
    ensures r.Some? ==> exists i :: 0 <= i < |s| && IsDigit(s[i])
  {
    ParseSigned(Strip(s))
  }

  /** An optional sign followed by digit groups, with nothing around them. */
  function ParseSigned(t: string): (r: Option<int>)
    ensures r.Some? ==> exists i :: 0 <= i < |t| && IsDigit(t[i])
  {
    if |t| > 0 && (t[0] == '+' || t[0] == '-') then
      match ParseDigits(t[1..])
      case None => None
      case Some(v) => Some(if t[0] == '-' then -(v as int) else v as int)
    else
      match ParseDigits(t)
      case None => None
      case Some(v) => Some(v)
  }

  /** Reading back a formatted number gives the number. */
  lemma {:induction false} DecimalRoundTrip(n: nat)
    ensures DigitsValue(NatToDecimal(n)) == n
  {
    if n >= 10 {
      var d := NatToDecimal(n / 10);
      var s := d + [DigitChar(n % 10)];
      assert s[..|s| - 1] == d;
      DecimalRoundTrip(n / 10);
    }
  }

  lemma {:induction false} DigitsAreGroups(s: string)
    requires AllDigits(s)
    ensures GroupTail(s)
    decreases |s|
  {
    if |s| > 0 {
      DigitsAreGroups(s[1..]);
    }
  }

  lemma {:induction false} DigitsHaveNoUnderscores(s: string)
    requires AllDigits(s)
    ensures RemoveUnderscores(s) == s
    decreases |s|
  {
    if |s| > 0 {
      DigitsHaveNoUnderscores(s[1..]);
    }
  }

  lemma DecimalParsesAsDigits(n: nat)
    ensures Strip(NatToDecimal(n)) == NatToDecimal(n)
    ensures ParseDigits(NatToDecimal(n)) == Some(n)
  {
    var d := NatToDecimal(n);
    assert !IsSpace(d[0]) && !IsSpace(d[|d| - 1]);
    assert TrimStart(d) == d;
    assert TrimEnd(d) == d;
    DigitsAreGroups(d[1..]);
    assert DigitGroups(d);
    DigitsHaveNoUnderscores(d);
    DecimalRoundTrip(n);
    assert DigitsValue(RemoveUnderscores(d)) == n;
  }

  /** `int(str(n)) == n` and `int("-" + str(n)) == -n` for every natural n. */
  lemma ParseIntOfDecimal(n: nat)
    ensures ParseInt(NatToDecimal(n)) == Some(n)
    ensures ParseInt("-" + NatToDecimal(n)) == Some(-(n as int))
  {
    ParseIntOfPositive(n);
    ParseIntOfNegative(n);
  }

  lemma ParseIntOfPositive(n: nat)
    ensures ParseInt(NatToDecimal(n)) == Some(n)
  {
    var d := NatToDecimal(n);
    DecimalParsesAsDigits(n);
    assert d[0] != '+' && d[0] != '-';
    assert ParseSigned(d) == Some(n);
  }

  lemma ParseIntOfNegative(n: nat)
    ensures ParseInt("-" + NatToDecimal(n)) == Some(-(n as int))
  {
    NegativeDecimalStrips(n);
    NegativeDecimalSigned(n);
  }

  lemma NegativeDecimalSigned(n: nat)
    ensures ParseSigned("-" + NatToDecimal(n)) == Some(-(n as int))
  {
    var d := NatToDecimal(n);
    var m := "-" + d;
    DecimalParsesAsDigits(n);
    assert m[1..] == d;
  }

  /** A minus sign before a formatted number leaves nothing to strip. */
  lemma NegativeDecimalStrips(n: nat)
    ensures Strip("-" + NatToDecimal(n)) == "-" + NatToDecimal(n)
  {
    var d := NatToDecimal(n);
    var m := "-" + d;
    assert !IsSpace(m[0]) && m[|m| - 1] == d[|d| - 1];
    assert TrimStart(m) == m;
    assert TrimEnd(m) == m;
  }

  predicate AllSpace(s: string)
  {
    forall i :: 0 <= i < |s| ==> IsSpace(s[i])
  }

  /** A text whose first character is not white space keeps that character
      when trailing white space is removed. */
  lemma {:induction false} TrimEndKeepsFirst(s: string)
    requires |s| > 0 && !IsSpace(s[0])
    ensures |TrimEnd(s)| > 0 && TrimEnd(s)[0] == s[0]
    decreases |s|
  {
    if IsSpace(s[|s| - 1]) {
      TrimEndKeepsFirst(s[..|s| - 1]);
    }
  }

  /** A text that begins with anything other than white space, a sign or a
      digit is refused by `int()`, whatever follows: the control characters
      U+001C..U+001F among them. */
  lemma ParseIntRejectsLeadingOther(s: string)
    requires |s| > 0 && !IsSpace(s[0]) && !IsDigit(s[0]) && s[0] != '+' && s[0] != '-'
    ensures ParseInt(s) == None
  {
    assert TrimStart(s) == s;
    TrimEndKeepsFirst(s);
    assert !DigitGroups(Strip(s));
  }

  /** Surrounding white space, of any of the kinds `int()` strips and in any
      amount, does not change what `int()` reads. */
  lemma ParseIntIgnoresPadding(pre: string, s: string, post: string)
    requires AllSpace(pre) && AllSpace(post)
    ensures ParseInt(pre + s + post) == ParseInt(s)
  {
    assert pre + s + post == pre + (s + post);
    TrimStartSkipsSpace(pre, s + post);
    StripOverSpaceSuffix(s, post);
  }

  lemma {:induction false} TrimStartSkipsSpace(pre: string, s: string)
    requires AllSpace(pre)
    ensures TrimStart(pre + s) == TrimStart(s)
    decreases |pre|
  {
    if |pre| > 0 {
      assert (pre + s)[0] == pre[0];
      assert (pre + s)[1..] == pre[1..] + s;
      TrimStartSkipsSpace(pre[1..], s);
    } else {
      assert pre + s == s;
    }
  }

  lemma {:induction false} TrimEndSkipsSpace(s: string, post: string)
    requires AllSpace(post)
    ensures TrimEnd(s + post) == TrimEnd(s)
    decreases |post|
  {
    if |post| > 0 {
      var t := s + post;
      assert t[|t| - 1] == post[|post| - 1];
      assert t[..|t| - 1] == s + post[..|post| - 1];
      TrimEndSkipsSpace(s, post[..|post| - 1]);
    } else {
      assert s + post == s;
    }
  }

  lemma {:induction false} StripOverSpaceSuffix(s: string, post: string)
    requires AllSpace(post)
    ensures TrimEnd(TrimStart(s + post)) == Strip(s)
    decreases |s|
  {
    if |s| == 0 {
      assert s + post == post + [];
      TrimStartSkipsSpace(post, []);
    } else if IsSpace(s[0]) {
      assert (s + post)[0] == s[0];
      assert (s + post)[1..] == s[1..] + post;
      StripOverSpaceSuffix(s[1..], post);
    } else {
      assert (s + post)[0] == s[0];
      assert TrimStart(s + post) == s + post;
      TrimEndSkipsSpace(s, post);
    }
  }
}

=== FILE: wrappers.dfy ===
/** Optional values, used for hit tests, parse results and located points. */
module Wrappers {

  datatype Option<+T> = None | Some(value: T)
}
